=== FILE: README.md ===
# Image row-to-document normaliser, in Dafny

This project models the part of the ingestion server that turns one row of
the `image` table into the document indexed by Elasticsearch:
`Image.database_row_to_elasticsearch_doc` and the static helpers it calls in
`ingestion_server/ingestion_server/elasticsearch_models.py`. The model is
functional. Every Python value the code touches is a `Json` value: a row
cell, the `meta_data` blob, or the `tags` list. Every exception the model keeps
is a `PyError` inside a `Result`; "Left out" lists the ones it does not.
The normaliser is a pure function of the row, the schema (column name to position) and a `Policy` holding the
external collaborators.

Modules, one per concern of the source file:

- `Wrappers`: `Option` and `Result`.
- `PyValues`: the `Json` datatype and the Python operations the code uses on it. These are truthiness, `in` (a key test on a dict, a substring test on a str, an element test on a list, TypeError otherwise), subscripting with a string, numeric use (`bool` counts as an `int`), and `str.lower`.
- `PyFloat`: `float(x)` on metadata values, with a decimal-literal parser for strings.
- `Bands`: `_constrain_between`, `get_aspect_ratio`, and `get_size` with the `ImageSizes` table as ordered (bound, label) bands. The last band is unbounded.
- `TextFields`: `get_extension` and `parse_description`.
- `Metadata`: `get_license_url`, `get_maturity`, `get_authority_boost` and `get_authority_penalty`.
- `Tags`: `parse_detailed_tags`.
- `ImageDocument`: the row/schema normaliser. It runs in three stages, each in Python's evaluation order, so the model reports the first exception Python would raise, among the exceptions it models (see "Left out"). The stages are the locals, the keyword arguments copied from the row, and the derived keyword arguments.

The model follows the code, including these behaviours a reader may not expect:

- All 18 columns the code reads are required. A schema missing any of them makes the call fail; the exception is a KeyError naming the column unless an earlier step raises first. Only `normalized_popularity` is optional.
- A metadata value that is not a mapping is not always harmless. A truthy number or boolean makes the `in` test raise TypeError in `get_license_url`, `get_maturity` and both authority getters. A string or list that contains the key's text passes the `in` test, and then the subscript raises TypeError, in the first two (`parse_description` catches every TypeError).
- A non-numeric `authority_boost` or `authority_penalty` gives `None`: the `except` clause passes and the score stays `None`, so the collaborator is not consulted.
- A url with no `.` is its own last segment. If it also has no `/`, it is returned whole, lower-cased.
- `get_license_url` returns only the metadata's `license_url`; as its docstring says, any url built from `license` and `license_version` is built elsewhere.
- Two text dimensions are compared as text, so `'480'` against `'640'` is wide; `get_size` then raises TypeError at the multiplication.
- The size bounds are 640·480 = 307200 and 1600·900 = 1440000, both exclusive.

## Model

| member | source | states |
|---|---|---|
| Bands.ConstrainBetween | ingestion_server/ingestion_server/elasticsearch_models.py:20-23 | when low <= high the result lies in [low, high] and is the value itself when the value is already inside; below low it is low, above high it is high; when low > high it is always low |
| Bands.ConstrainBetweenIdempotent | ingestion_server/ingestion_server/elasticsearch_models.py:20-23 | clamping twice into the same interval is clamping once |
| Bands.ConstrainBetweenMonotone | ingestion_server/ingestion_server/elasticsearch_models.py:20-23 | clamping into a well-formed interval preserves order |
| Bands.GetAspectRatio | ingestion_server/ingestion_server/elasticsearch_models.py:134-144 | None exactly when height or width is None; for two numbers (or booleans) tall iff height > width, wide iff height < width, square iff equal; for two strings the same by code-point text order; TypeError exactly for any other pair of non-None dimensions |
| Bands.StrLess | ingestion_server/ingestion_server/elasticsearch_models.py:138-142 | Python's `<` on two strings holds exactly when the left one is a proper prefix of the right one, or the first position where they differ holds the smaller character on the left |
| Bands.StrLessTrichotomy | ingestion_server/ingestion_server/elasticsearch_models.py:138-142 | Python's string order is a strict total order, so the tall/wide/square branches of two strings are exclusive and exhaustive |
| Bands.TextDimensionsCompareAsText | ingestion_server/ingestion_server/elasticsearch_models.py:135-150 | heights and widths `'480'` and `'640'` compare as text (wide), and `get_size` raises on them |
| Bands.FirstFit | ingestion_server/ingestion_server/elasticsearch_models.py:151-153 | the scan stops at the first band, in ascending order, whose bound lies strictly above the resolution; every earlier band is passed over |
| Bands.GetSize | ingestion_server/ingestion_server/elasticsearch_models.py:146-153 | None exactly when height or width is None; otherwise small iff h·w < 307200, medium iff 307200 <= h·w < 1440000, large otherwise |
| Bands.SizeMonotone | ingestion_server/ingestion_server/elasticsearch_models.py:61-67 | a larger resolution never falls in a smaller size band |
| Bands.LabelsAreDistinct | ingestion_server/ingestion_server/elasticsearch_models.py:144-153 | the aspect-ratio and size labels the document holds are the lower-cased member names, pairwise distinct, so each enum value stands for exactly one label |
| Bands.VgaBoundaryIsMedium | ingestion_server/ingestion_server/elasticsearch_models.py:61-67 | 640×480 is medium, because the small bound is exclusive; the same image is wide |
| TextFields.LastDotSegment | ingestion_server/ingestion_server/elasticsearch_models.py:128 | `url.split('.')[-1]` is a suffix of the url with no '.', preceded by a '.' unless it is the whole url |
| TextFields.SlashInLastSegment | ingestion_server/ingestion_server/elasticsearch_models.py:128-129 | the last segment holds a '/' exactly when some '/' of the url has no '.' after it |
| TextFields.GetExtension | ingestion_server/ingestion_server/elasticsearch_models.py:126-132 | a non-None extension is the lower-cased text after the last '.', and holds neither '.' nor '/'; None exactly when a '/' follows the last '.' |
| TextFields.ExtensionOfPlainName | ingestion_server/ingestion_server/elasticsearch_models.py:128-132 | a url with neither '.' nor '/' comes back whole, lower-cased |
| TextFields.ExtensionExamples | ingestion_server/ingestion_server/elasticsearch_models.py:127-132 | a `.JPG` photo url gives `jpg`; a url ending in a directory gives None |
| TextFields.SliceTo | ingestion_server/ingestion_server/elasticsearch_models.py:122 | slicing keeps a prefix of length min(len, limit) of a string or list and raises TypeError on anything else |
| TextFields.ParseDescription | ingestion_server/ingestion_server/elasticsearch_models.py:113-124 | a result exists only for a dict holding `description`; then it is the prefix of length min(len, 2000) of a string or list value, and None for any other value; absent, non-dict or unsliceable input gives None |
| TextFields.LongDescriptionIsCut | ingestion_server/ingestion_server/elasticsearch_models.py:118-122 | a 2500-character description becomes its first 2000 characters |
| Metadata.MetaLookup | ingestion_server/ingestion_server/elasticsearch_models.py:161-162 | `meta and key in meta` then `meta[key]`: the value exactly when the blob is a dict holding the key; TypeError exactly for a truthy number or boolean, or a string or list containing the key |
| Metadata.GetLicenseUrl | ingestion_server/ingestion_server/elasticsearch_models.py:155-164 | the metadata `license_url` when the blob is a dict holding it, else None; never raises for None or a dict |
| Metadata.GetMaturity | ingestion_server/ingestion_server/elasticsearch_models.py:166-182 | a truthy API flag makes the result True; otherwise it is the metadata `mature` value when present, else False; never raises for None or a dict |
| Metadata.AuthorityScore | ingestion_server/ingestion_server/elasticsearch_models.py:184-197 | falsy metadata or a dict without the key gives exactly the collaborator's value for the source; a present key gives the float clamped into [0, 100], or None when float() fails, without the collaborator; a truthy string or list blob gives None when it contains the key's text (the subscript raises inside the `try`) and the collaborator's value otherwise; raises (TypeError) exactly for a truthy number or boolean blob, leaving aside the OverflowError of `float` on a huge integer |
| Metadata.GetAuthorityBoost | ingestion_server/ingestion_server/elasticsearch_models.py:184-197 | the boost is the collaborator's value when the key is absent, None when the value is not numeric, and the float clamped into [0, 100] when it is; a truthy string or list blob gives None when it contains the key's text and the collaborator's value otherwise |
| Metadata.GetAuthorityPenalty | ingestion_server/ingestion_server/elasticsearch_models.py:199-212 | the penalty is the collaborator's value when the key is absent, None when the value is not numeric, and the float clamped into [0, 100] when it is; a truthy string or list blob gives None when it contains the key's text and the collaborator's value otherwise |
| Metadata.NonNumericBoostIgnoresCollaborator | ingestion_server/ingestion_server/elasticsearch_models.py:187-194 | `authority_boost: 'not-a-number'` gives None even when the collaborator has a score for the source |
| Metadata.ApiFlagForcesMature | ingestion_server/ingestion_server/elasticsearch_models.py:177-182 | empty metadata with the API flag set is mature |
| PyFloat.ParseUnsigned | ingestion_server/ingestion_server/elasticsearch_models.py:189 | an unsigned decimal parses exactly when it is digits with at most one '.' and at least one digit, and its value is non-negative |
| PyFloat.ParseDecimal | ingestion_server/ingestion_server/elasticsearch_models.py:189 | `float(s)` succeeds exactly on an optionally signed decimal literal |
| PyFloat.ToFloat | ingestion_server/ingestion_server/elasticsearch_models.py:189 | `float(v)` keeps numbers, parses strings, and fails on None, lists and dicts |
| PyFloat.ParseIntTextRoundTrip | ingestion_server/ingestion_server/elasticsearch_models.py:189 | `float(str(i)) == i` for every integer |
| PyFloat.ParseFractionExample | ingestion_server/ingestion_server/elasticsearch_models.py:189 | "12.5" parses to 12.5 |
| PyFloat.ParseRejectsWords | ingestion_server/ingestion_server/elasticsearch_models.py:193-194 | "not-a-number" does not parse |
| PyValues.SubstringIff | ingestion_server/ingestion_server/elasticsearch_models.py:121 | the `in` test on two strings holds exactly when the key occurs at some position |
| PyValues.Lower | ingestion_server/ingestion_server/elasticsearch_models.py:98 | lower-casing keeps the length and maps each character on its own |
| PyValues.LowerIsLower | ingestion_server/ingestion_server/elasticsearch_models.py:98 | no upper-case ASCII letter survives lower-casing |
| PyValues.LowerIdempotent | ingestion_server/ingestion_server/elasticsearch_models.py:98 | lower-casing a lower-cased license changes nothing |
| PyValues.LowerKeepsSeparators | ingestion_server/ingestion_server/elasticsearch_models.py:128-129 | lower-casing neither creates nor removes '.' or '/', so the test after `.lower()` sees the url's own separators |
| Tags.ParseTag | ingestion_server/ingestion_server/elasticsearch_models.py:218-223 | a dict tag is kept exactly when it has `name`, reduced to its `name` plus `accuracy` exactly when the input had one, both values copied unchanged; any other value that does not raise is skipped; raises exactly for None, numbers, booleans, and strings or lists containing "name" |
| Tags.ParseTagList | ingestion_server/ingestion_server/elasticsearch_models.py:217-224 | the loop yields at most one tag per input and raises only TypeError |
| Tags.ParseDetailedTags | ingestion_server/ingestion_server/elasticsearch_models.py:214-226 | None exactly for a falsy input, never an empty list in its place; a non-empty list is the loop's result; a non-empty string gives an empty list; a non-empty dict raises TypeError exactly when one of its keys contains "name", and gives an empty list otherwise |
| Tags.ParseTagListKeepsNamedInOrder | ingestion_server/ingestion_server/elasticsearch_models.py:216-224 | whenever no tag raises, the output is the in-order subsequence of the dict tags holding `name`, each reduced to `name` and `accuracy`; strings and lists without a "name" element are skipped |
| Tags.ParseDetailedTagsOfDicts | ingestion_server/ingestion_server/elasticsearch_models.py:214-226 | a non-empty list of dict tags becomes its named tags, in order, projected |
| Tags.NoTagsIsNone | ingestion_server/ingestion_server/elasticsearch_models.py:225-226 | None and an empty list both give None |
| Tags.MixedTagsExample | ingestion_server/ingestion_server/elasticsearch_models.py:215-226 | a string tag without "name" is skipped and the named dict after it kept |
| Tags.TagsExample | ingestion_server/ingestion_server/elasticsearch_models.py:215-226 | a named tag with accuracy is kept whole, an unnamed tag is dropped |
| ImageDocument.Column | ingestion_server/ingestion_server/elasticsearch_models.py:74-107 | `row[schema[name]]` is the cell at the column's position when the schema names the column, and KeyError naming it otherwise |
| ImageDocument.StrReceiver | ingestion_server/ingestion_server/elasticsearch_models.py:98 | a `str` method (`.lower()` here, `.split` in `get_extension`) runs only on a string; any other cell raises AttributeError naming the method |
| ImageDocument.NormalizedPopularity | ingestion_server/ingestion_server/elasticsearch_models.py:80-84 | None exactly when the schema has no `normalized_popularity`; otherwise exactly the cell clamped into [0, 100], unchanged when already inside, with TypeError for a non-number |
| ImageDocument.ReadLocals | ingestion_server/ingestion_server/elasticsearch_models.py:74-84 | succeeds exactly when the six local columns exist, the url is a string and the popularity step passes; a KeyError names a missing local column |
| ImageDocument.ReadListing | ingestion_server/ingestion_server/elasticsearch_models.py:86-100 | succeeds exactly when the eleven copied columns exist, the tags parse and the license is a string; the license is lower-cased, the tags are the parsed tags, and every other field is its cell copied unchanged |
| ImageDocument.ReadDerived | ingestion_server/ingestion_server/elasticsearch_models.py:104-110 | succeeds exactly when `mature` exists and aspect ratio, size, license url and maturity pass; each derived field is its helper's result |
| ImageDocument.RowToDocument | ingestion_server/ingestion_server/elasticsearch_models.py:72-111 | a document exists exactly when the three stages pass, only when all 18 required columns exist, and a KeyError names a missing required column; `_id` and `id` are both the id cell and every copied field is its cell; tags, popularity, aspect ratio, size, license url, maturity and both authority scores are exactly their helpers' results on the row's cells; popularity is None iff its column is absent and in [0, 100] otherwise; aspect ratio and size are None iff a dimension is None; a truthy API flag makes it mature |
| ImageDocument.WellTypedRowNormalises | ingestion_server/ingestion_server/elasticsearch_models.py:72-111 | a row whose required columns exist and whose cells have the image table's types always normalises |

## Left out

- The `elasticsearch_dsl` classes (`DocType`, `Field`, `Integer`, `RankFeature`), the `Index` inner class and the `Image(...)` constructor are left out; the output is the plain `Document` record.
- The `SyncableDocType` base stub and the `database_table_to_elasticsearch_model` registry are trivial dispatch.
- `get_categories` and the module-level `get_authority_boost`/`get_authority_penalty` are not part of this model. They are the function fields of `Policy`, total and pure, so a collaborator that raises is not modelled.
- PyFloat.ParseDecimal: accepts only `[sign] digits [. digits]`. Python's `float` also accepts surrounding whitespace, exponents, digit-group underscores, `inf`, `nan`, and non-ASCII decimal digits (Unicode category Nd, as in `'١٢'` or `'１２.5'`), and the model returns None for those.
- PyValues.Lower: lower-cases ASCII letters only; Python's `str.lower` also maps other Unicode letters.
- Bands.GetAspectRatio: two lists raise TypeError here, while Python compares them element by element. `get_size` then raises TypeError at the multiplication, so the document fails with the same exception class either way.
- PyFloat.ToFloat: `float` of an integer beyond the double range raises OverflowError, which the authority getters do not catch. Numbers here are unbounded, so that exception is not modelled and such a value is clamped instead.
- Numbers are unbounded reals. The model does not tell a Python `int` from a `float`, and it has no infinities or NaN. The unbounded last size band stands for `float("inf")`.
- Schema positions are assumed to lie inside the row (`PositionsInRow`). IndexError and negative positions are not modelled.
- Exceptions are reduced to their class and the operation or key that raised. Messages are not kept.
- Slicing a dict `description` is taken to raise TypeError, as it does before Python 3.12. From 3.12 on, slices are hashable and it raises KeyError.
- Idempotence needs no lemma: `RowToDocument` is a function, so equal inputs give equal documents.

=== FILE: bands.dfy ===
/**
  Numeric and categorical derivations of the image normaliser: the clamp used
  for every score, the aspect-ratio class and the size class.
*/
module Bands {
  import opened Wrappers
  import opened PyValues

  /**
    `_constrain_between(value, low, high)`: cap at `high` with `min`, then
    raise to `low` with `max`.  Python's `min` and `max` keep their first
    argument on ties.
  */
  function ConstrainBetween(value: real, low: real, high: real): (r: real)
    ensures low <= high ==> low <= r <= high
    ensures low <= value <= high ==> r == value
    ensures value < low ==> r == low
    ensures low <= high < value ==> r == high
    ensures high < low ==> r == low
  {
    var ceiling := if high < value then high else value;
    if low < ceiling then ceiling else low
  }

  /** Clamping is idempotent: a clamped value is left alone. */
  lemma ConstrainBetweenIdempotent(value: real, low: real, high: real)
    ensures ConstrainBetween(ConstrainBetween(value, low, high), low, high) == ConstrainBetween(value, low, high)
  {
  }

  /** Clamping preserves order when the interval is well formed. */
  lemma ConstrainBetweenMonotone(v1: real, v2: real, low: real, high: real)
    requires low <= high && v1 <= v2
    ensures ConstrainBetween(v1, low, high) <= ConstrainBetween(v2, low, high)
  {
  }

  datatype AspectRatio = Tall | Wide | Square {
    /** The enum member's name, lower-cased, as stored in the document. */
    function Name(): string {
      match this
      case Tall => "tall"
      case Wide => "wide"
      case Square => "square"
    }
  }

  /** `a` and `b` agree before position `k`, where `a` has the smaller character. */
  predicate SmallerAt(a: string, b: string, k: int) {
    0 <= k < |a| && k < |b| && a[..k] == b[..k] && a[k] < b[k]
  }

  /** Dropping an equal first character shifts every witness of the order by one. */
  lemma SmallerAtShift(a: string, b: string)
    requires |a| > 0 && |b| > 0 && a[0] == b[0]
    ensures a < b <==> a[1..] < b[1..]
    ensures (exists k :: SmallerAt(a, b, k)) <==> (exists k :: SmallerAt(a[1..], b[1..], k))
  {
    if exists k :: SmallerAt(a, b, k) {
      var k :| SmallerAt(a, b, k);
      assert k > 0;
      assert a[1..][..k-1] == a[1..k] == b[1..k] == b[1..][..k-1];
      assert SmallerAt(a[1..], b[1..], k - 1);
    }
    if exists k :: SmallerAt(a[1..], b[1..], k) {
      var k :| SmallerAt(a[1..], b[1..], k);
      assert a[..k+1] == [a[0]] + a[1..][..k] && b[..k+1] == [b[0]] + b[1..][..k];
      assert SmallerAt(a, b, k + 1);
    }
    if |a| < |b| {
      assert b[1..][..|a|-1] == b[1..|a|] == b[..|a|][1..];
      assert a == [a[0]] + a[1..];
      assert b[..|a|] == [b[0]] + b[..|a|][1..];
    }
  }

  /**
    Python's `a < b` on two strings: code-point order, a proper prefix first.
    It holds exactly when `a` is a proper prefix of `b` or the first
    difference has the smaller character in `a`.
  */
  predicate StrLess(a: string, b: string): (r: bool)
    ensures r <==> a < b || exists k :: SmallerAt(a, b, k)
    decreases |a|
  {
    if |b| == 0 then
      assert forall k :: !SmallerAt(a, b, k);
      false
    else if |a| == 0 then
      assert a < b;
      true
    else if a[0] < b[0] then
      assert SmallerAt(a, b, 0);
      true
    else if a[0] == b[0] then
      SmallerAtShift(a, b);
      StrLess(a[1..], b[1..])
    else
      false
  }

  /** String order is a strict total order: exactly one of `a < b`, `a == b`, `b < a` holds. */
  lemma {:induction false} StrLessTrichotomy(a: string, b: string)
    ensures StrLess(a, b) || a == b || StrLess(b, a)
    ensures !(StrLess(a, b) && StrLess(b, a))
    ensures StrLess(a, b) ==> a != b
    decreases |a|
  {
    if |a| > 0 && |b| > 0 && a[0] == b[0] {
      StrLessTrichotomy(a[1..], b[1..]);
      if a[1..] == b[1..] {
        assert a == [a[0]] + a[1..] && b == [b[0]] + b[1..];
      }
    }
  }

  /**
    `get_aspect_ratio`: `None` when either dimension is `None`, otherwise the
    comparison of height against width.  Numbers (and booleans) compare by
    value and two strings compare as text; any other pair raises TypeError.
  */
  function GetAspectRatio(height: Json, width: Json): (r: Result<Option<AspectRatio>, PyError>)
    ensures r == Success(None) <==> height.JNull? || width.JNull?
    ensures r.Failure? <==> && !height.JNull? && !width.JNull?
                            && !(height.JStr? && width.JStr?)
                            && (Number(height).Failure? || Number(width).Failure?)
    ensures Number(height).Success? && Number(width).Success? ==>
              var h, w := Number(height).value, Number(width).value;
              && r.Success? && r.value.Some?
              && (r.value.value == Tall <==> h > w)
              && (r.value.value == Wide <==> h < w)
              && (r.value.value == Square <==> h == w)
    ensures height.JStr? && width.JStr? ==>
              && r.Success? && r.value.Some?
              && (r.value.value == Tall <==> StrLess(width.s, height.s))
              && (r.value.value == Wide <==> StrLess(height.s, width.s))
              && (r.value.value == Square <==> height.s == width.s)
  {
    if height.JNull? || width.JNull? then Success(None)
    else if height.JStr? && width.JStr? then
      StrLessTrichotomy(height.s, width.s);
      if StrLess(width.s, height.s) then Success(Some(Tall))
      else if StrLess(height.s, width.s) then Success(Some(Wide))
      else Success(Some(Square))
    else
      var h :- Number(height);
      var w :- Number(width);
      if h > w then Success(Some(Tall))
      else if h < w then Success(Some(Wide))
      else Success(Some(Square))
  }

  /** Text dimensions compare as text: "480" sorts before "640". */
  lemma TextDimensionsCompareAsText()
    ensures GetAspectRatio(JStr("480"), JStr("640")) == Success(Some(Wide))
    ensures GetSize(JStr("480"), JStr("640")).Failure?
  {
  }

  datatype ImageSize = Small | Medium | Large {
    function Name(): string {
      match this
      case Small => "small"
      case Medium => "medium"
      case Large => "large"
    }

    /** Position of the band in ascending order of resolution. */
    function Rank(): nat {
      match this
      case Small => 0
      case Medium => 1
      case Large => 2
    }
  }

  /**
    The document holds the lower-cased member name (`.name.lower()`).  The
    labels are pairwise distinct, so each enum value stands for its label.
  */
  lemma LabelsAreDistinct(a1: AspectRatio, a2: AspectRatio, s1: ImageSize, s2: ImageSize)
    ensures a1.Name() == a2.Name() <==> a1 == a2
    ensures s1.Name() == s2.Name() <==> s1 == s2
    ensures Lower(a1.Name()) == a1.Name() && Lower(s1.Name()) == s1.Name()
  {
  }

  /** The exclusive upper bound of a size band; the last band has none. */
  datatype Bound = Below(limit: int) | Unbounded

  datatype Band = Band(bound: Bound, size: ImageSize)

  /** `Image.ImageSizes`: the bands in ascending order of their bounds. */
  const ImageSizes: seq<Band> := [
    Band(Below(640 * 480), Small),
    Band(Below(1600 * 900), Medium),
    Band(Unbounded, Large)
  ]

  predicate Fits(resolution: real, bound: Bound) {
    bound.Unbounded? || resolution < bound.limit as real
  }

  /** Index of the first band whose bound admits `resolution`, or `|bands|`. */
  function FirstFit(resolution: real, bands: seq<Band>): (k: nat)
    ensures k <= |bands|
    ensures forall j :: 0 <= j < k ==> !Fits(resolution, bands[j].bound)
    ensures k < |bands| ==> Fits(resolution, bands[k].bound)
    decreases |bands|
  {
    if |bands| == 0 then 0
    else if Fits(resolution, bands[0].bound) then 0
    else 1 + FirstFit(resolution, bands[1..])
  }

  /**
    `get_size`: `None` when either dimension is `None`; otherwise the first
    band, in ascending order, whose bound lies strictly above height times
    width.  The unbounded last band makes the scan always succeed.
  */
  function GetSize(height: Json, width: Json): (r: Result<Option<ImageSize>, PyError>)
    ensures r == Success(None) <==> height.JNull? || width.JNull?
    ensures r.Failure? <==> !height.JNull? && !width.JNull? && (Number(height).Failure? || Number(width).Failure?)
    ensures r.Success? && r.value.Some? ==>
              var resolution := Number(height).value * Number(width).value;
              && (r.value.value == Small <==> resolution < 307200.0)
              && (r.value.value == Medium <==> 307200.0 <= resolution < 1440000.0)
              && (r.value.value == Large <==> 1440000.0 <= resolution)
  {
    if height.JNull? || width.JNull? then Success(None)
    else
      var h :- Number(height);
      var w :- Number(width);
      var k := FirstFit(h * w, ImageSizes);
      assert k < |ImageSizes| by {
        assert Fits(h * w, ImageSizes[2].bound);
      }
      assert k == 0 <==> h * w < 307200.0 by {
        assert ImageSizes[0].bound == Below(307200);
      }
      assert k <= 1 <==> h * w < 1440000.0 by {
        assert ImageSizes[1].bound == Below(1440000);
      }
      assert ImageSizes[0].size == Small && ImageSizes[1].size == Medium && ImageSizes[2].size == Large;
      assert h * w == Number(height).value * Number(width).value;
      if k < |ImageSizes| then Success(Some(ImageSizes[k].size)) else Success(None)
  }

  /** A larger resolution never lands in a smaller band. */
  lemma SizeMonotone(h1: real, w1: real, h2: real, w2: real)
    requires h1 * w1 <= h2 * w2
    ensures GetSize(JNum(h1), JNum(w1)).value.value.Rank() <= GetSize(JNum(h2), JNum(w2)).value.value.Rank()
  {
  }

  /** 640x480 sits exactly on the first bound, which is exclusive. */
  lemma VgaBoundaryIsMedium()
    ensures GetSize(JNum(480.0), JNum(640.0)) == Success(Some(Medium))
    ensures GetAspectRatio(JNum(480.0), JNum(640.0)) == Success(Some(Wide))
  {
  }
}

=== FILE: image_document.dfy ===
/**
  `Image.database_row_to_elasticsearch_doc`: one database row, read through
  a schema that maps column names to positions, becomes one search document.
  Every step is evaluated in the order Python evaluates it (the locals first,
  then the keyword arguments of `Image(...)` from left to right), so the
  exception reported is the first one Python would raise among those the
  model keeps (OverflowError from `float` is not one of them).
*/
module ImageDocument {
  import opened Wrappers
  import opened PyValues
  import opened Bands
  import opened TextFields
  import opened Metadata
  import opened Tags

  /** A database row: its cells, in column order. */
  type Row = seq<Json>

  /** Column name to position in the row. */
  type Schema = map<string, nat>

  /** Every position the schema names lies inside the row. */
  predicate PositionsInRow(row: Row, schema: Schema) {
    forall name :: name in schema ==> schema[name] < |row|
  }

  /**
    The collaborators the normaliser calls but does not define:
    `get_categories(extension, source)` and the module-level
    `get_authority_boost(source)` and `get_authority_penalty(source)`.
  */
  datatype Policy = Policy(
    categories: (Option<string>, Json) -> Json,
    authorityBoost: Json -> Option<real>,
    authorityPenalty: Json -> Option<real>)

  /** The search document handed to the indexer. `docId` is the `_id` meta-field. */
  datatype Document = Document(
    docId: Json,
    id: Json,
    title: Json,
    identifier: Json,
    creator: Json,
    creatorUrl: Json,
    tags: Option<seq<Tag>>,
    createdOn: Json,
    url: string,
    thumbnail: Json,
    provider: Json,
    source: Json,
    license: string,
    licenseVersion: Json,
    foreignLandingUrl: Json,
    description: Option<Json>,
    extension: Option<string>,
    categories: Json,
    aspectRatio: Option<AspectRatio>,
    size: Option<ImageSize>,
    licenseUrl: Option<Json>,
    mature: Json,
    normalizedPopularity: Option<real>,
    authorityBoost: Option<real>,
    authorityPenalty: Option<real>)

  /** The one optional column: its absence gives a `None` popularity. */
  const PopularityColumn := "normalized_popularity"

  /** `row[schema[name]]`: KeyError when the schema has no such column. */
  function Column(row: Row, schema: Schema, name: string): (r: Result<Json, PyError>)
    requires PositionsInRow(row, schema)
    ensures r.Success? <==> name in schema
    ensures r.Success? ==> r.value == row[schema[name]]
    ensures r.Failure? ==> r.error == KeyError(name)
  {
    if name in schema then Success(row[schema[name]]) else Failure(KeyError(name))
  }

  /** The text of a value on which a `str` method is called; other values lack the attribute. */
  function StrReceiver(v: Json, attribute: string): (r: Result<string, PyError>)
    ensures r.Success? <==> v.JStr?
    ensures r.Success? ==> r.value == v.s
    ensures r.Failure? ==> r.error == AttributeError(attribute)
  {
    if v.JStr? then Success(v.s) else Failure(AttributeError(attribute))
  }

  /**
    The popularity step: `None` when the schema has no popularity column
    (the KeyError is caught), otherwise the cell clamped into [0, 100].  A
    cell that cannot be ordered against a number raises TypeError, which is
    not caught.
  */
  function NormalizedPopularity(row: Row, schema: Schema): (r: Result<Option<real>, PyError>)
    requires PositionsInRow(row, schema)
    ensures PopularityColumn !in schema ==> r == Success(None)
    ensures PopularityColumn in schema ==>
              var cell := row[schema[PopularityColumn]];
              && (r.Success? <==> Number(cell).Success?)
              && (r.Success? ==> r.value.Some? && 0.0 <= r.value.value <= 100.0)
              && (r.Success? && 0.0 <= Number(cell).value <= 100.0 ==> r.value == Some(Number(cell).value))
              && (r.Success? ==> r.value == Some(ConstrainBetween(Number(cell).value, 0.0, 100.0)))
  {
    match Column(row, schema, PopularityColumn)
    case Failure(_) => Success(None)
    case Success(cell) =>
      var popularity :- Number(cell);
      Success(Some(ConstrainBetween(popularity, 0.0, 100.0)))
  }

  /** The locals computed before `Image(...)` is called. */
  datatype Locals = Locals(
    provider: Json,
    source: Json,
    url: string,
    extension: Option<string>,
    height: Json,
    width: Json,
    meta: Json,
    popularity: Option<real>)

  /** The columns the locals read. */
  predicate IsLocalColumn(name: string) {
    name == "provider" || name == "source" || name == "url" || name == "height" || name == "width" || name == "meta_data"
  }

  predicate HasLocalColumns(schema: Schema) {
    "provider" in schema && "source" in schema && "url" in schema && "height" in schema && "width" in schema && "meta_data" in schema
  }

  /** The first seven statements: the locals, in order. */
  function ReadLocals(row: Row, schema: Schema): (r: Result<Locals, PyError>)
    requires PositionsInRow(row, schema)
    ensures r.Success? <==> && HasLocalColumns(schema)
                            && row[schema["url"]].JStr?
                            && NormalizedPopularity(row, schema).Success?
    ensures r.Failure? && r.error.KeyError? ==> IsLocalColumn(r.error.key) && r.error.key !in schema
    ensures r.Success? ==>
              && row[schema["url"]] == JStr(r.value.url)
              && r.value.extension == GetExtension(r.value.url)
              && r.value.source == row[schema["source"]]
              && r.value.provider == row[schema["provider"]]
              && r.value.height == row[schema["height"]]
              && r.value.width == row[schema["width"]]
              && r.value.meta == row[schema["meta_data"]]
              && Success(r.value.popularity) == NormalizedPopularity(row, schema)
  {
    var provider :- Column(row, schema, "provider");
    var source :- Column(row, schema, "source");
    var urlCell :- Column(row, schema, "url");
    var url :- StrReceiver(urlCell, "split");
    var extension := GetExtension(url);
    var height :- Column(row, schema, "height");
    var width :- Column(row, schema, "width");
    var meta :- Column(row, schema, "meta_data");
    var popularity :- NormalizedPopularity(row, schema);
    Success(Locals(provider, source, url, extension, height, width, meta, popularity))
  }

  /** The keyword arguments copied from the row (or from the tags column). */
  datatype Listing = Listing(
    id: Json,
    title: Json,
    identifier: Json,
    creator: Json,
    creatorUrl: Json,
    tags: Option<seq<Tag>>,
    createdOn: Json,
    thumbnail: Json,
    license: string,
    licenseVersion: Json,
    foreignLandingUrl: Json)

  /** The columns the copied keyword arguments read. */
  predicate IsListingColumn(name: string) {
    || name == "id" || name == "title" || name == "identifier" || name == "creator"
    || name == "creator_url" || name == "tags" || name == "created_on" || name == "thumbnail"
    || name == "license" || name == "license_version" || name == "foreign_landing_url"
  }

  predicate HasListingColumns(schema: Schema) {
    && "id" in schema && "title" in schema && "identifier" in schema && "creator" in schema
    && "creator_url" in schema && "tags" in schema && "created_on" in schema && "thumbnail" in schema
    && "license" in schema && "license_version" in schema && "foreign_landing_url" in schema
  }

  /** The keyword arguments from `_id` to `foreign_landing_url`, in order. */
  function ReadListing(row: Row, schema: Schema): (r: Result<Listing, PyError>)
    requires PositionsInRow(row, schema)
    ensures r.Success? <==> && HasListingColumns(schema)
                            && ParseDetailedTags(row[schema["tags"]]).Success?
                            && row[schema["license"]].JStr?
    ensures r.Failure? && r.error.KeyError? ==> IsListingColumn(r.error.key) && r.error.key !in schema
    ensures r.Success? ==>
              && r.value.id == row[schema["id"]]
              && r.value.title == row[schema["title"]]
              && r.value.identifier == row[schema["identifier"]]
              && r.value.creator == row[schema["creator"]]
              && r.value.creatorUrl == row[schema["creator_url"]]
              && r.value.createdOn == row[schema["created_on"]]
              && r.value.thumbnail == row[schema["thumbnail"]]
              && r.value.licenseVersion == row[schema["license_version"]]
              && r.value.foreignLandingUrl == row[schema["foreign_landing_url"]]
              && row[schema["license"]].JStr?
              && r.value.license == Lower(row[schema["license"]].s)
              && Success(r.value.tags) == ParseDetailedTags(row[schema["tags"]])
  {
    var id :- Column(row, schema, "id");
    var title :- Column(row, schema, "title");
    var identifier :- Column(row, schema, "identifier");
    var creator :- Column(row, schema, "creator");
    var creatorUrl :- Column(row, schema, "creator_url");
    var tagsCell :- Column(row, schema, "tags");
    var tags :- ParseDetailedTags(tagsCell);
    var createdOn :- Column(row, schema, "created_on");
    var thumbnail :- Column(row, schema, "thumbnail");
    var licenseCell :- Column(row, schema, "license");
    var license :- StrReceiver(licenseCell, "lower");
    var licenseVersion :- Column(row, schema, "license_version");
    var foreignLandingUrl :- Column(row, schema, "foreign_landing_url");
    Success(Listing(id, title, identifier, creator, creatorUrl, tags, createdOn, thumbnail,
                    Lower(license), licenseVersion, foreignLandingUrl))
  }

  /** The keyword arguments derived after the copied ones, from `aspect_ratio` on. */
  datatype Derived = Derived(
    aspectRatio: Option<AspectRatio>,
    size: Option<ImageSize>,
    licenseUrl: Option<Json>,
    mature: Json,
    authorityBoost: Option<real>,
    authorityPenalty: Option<real>)

  /** `aspect_ratio` to `authority_penalty`, in order; only `mature` reads a column. */
  function ReadDerived(row: Row, schema: Schema, locals: Locals, policy: Policy): (r: Result<Derived, PyError>)
    requires PositionsInRow(row, schema)
    ensures r.Success? <==> && "mature" in schema
                            && GetAspectRatio(locals.height, locals.width).Success?
                            && GetSize(locals.height, locals.width).Success?
                            && GetLicenseUrl(locals.meta).Success?
                            && GetMaturity(locals.meta, row[schema["mature"]]).Success?
    ensures r.Failure? && r.error.KeyError? ==> r.error.key == "mature" && "mature" !in schema
    ensures r.Success? ==>
              && Success(r.value.aspectRatio) == GetAspectRatio(locals.height, locals.width)
              && Success(r.value.size) == GetSize(locals.height, locals.width)
              && Success(r.value.licenseUrl) == GetLicenseUrl(locals.meta)
              && Success(r.value.mature) == GetMaturity(locals.meta, row[schema["mature"]])
              && Success(r.value.authorityBoost) == GetAuthorityBoost(locals.meta, locals.source, policy.authorityBoost)
              && Success(r.value.authorityPenalty) == GetAuthorityPenalty(locals.meta, locals.source, policy.authorityPenalty)
  {
    var aspectRatio :- GetAspectRatio(locals.height, locals.width);
    // Two text dimensions pass the comparison but not the multiplication.
    var size :- GetSize(locals.height, locals.width);
    var licenseUrl :- GetLicenseUrl(locals.meta);
    var matureCell :- Column(row, schema, "mature");
    var mature :- GetMaturity(locals.meta, matureCell);
    // Once `get_license_url` has passed, the `in` tests of the authority
    // steps cannot raise, and their subscripts sit inside a `try`.
    var boost := GetAuthorityBoost(locals.meta, locals.source, policy.authorityBoost).value;
    var penalty := GetAuthorityPenalty(locals.meta, locals.source, policy.authorityPenalty).value;
    Success(Derived(aspectRatio, size, licenseUrl, mature, boost, penalty))
  }

  /** The 18 columns read without a `try`: a schema lacking any of them raises KeyError. */
  predicate IsRequiredColumn(name: string) {
    IsLocalColumn(name) || IsListingColumn(name) || name == "mature"
  }

  predicate HasRequiredColumns(schema: Schema) {
    HasLocalColumns(schema) && HasListingColumns(schema) && "mature" in schema
  }

  /** `Image.database_row_to_elasticsearch_doc(row, schema)`. */
  function RowToDocument(row: Row, schema: Schema, policy: Policy): (r: Result<Document, PyError>)
    requires PositionsInRow(row, schema)
    ensures r.Success? ==> HasRequiredColumns(schema)
    ensures r.Failure? && r.error.KeyError? ==> IsRequiredColumn(r.error.key) && r.error.key !in schema
    ensures r.Success? <==> && ReadLocals(row, schema).Success?
                            && ReadListing(row, schema).Success?
                            && ReadDerived(row, schema, ReadLocals(row, schema).value, policy).Success?
    ensures r.Success? ==>
              var d := r.value;
              var height, width, meta := row[schema["height"]], row[schema["width"]], row[schema["meta_data"]];
              && d.docId == row[schema["id"]]
              && d.id == row[schema["id"]]
              && d.title == row[schema["title"]]
              && d.identifier == row[schema["identifier"]]
              && d.creator == row[schema["creator"]]
              && d.creatorUrl == row[schema["creator_url"]]
              && Success(d.tags) == ParseDetailedTags(row[schema["tags"]])
              && d.createdOn == row[schema["created_on"]]
              && row[schema["url"]] == JStr(d.url)
              && d.thumbnail == row[schema["thumbnail"]]
              && d.provider == row[schema["provider"]]
              && d.extension == GetExtension(d.url)
              && d.source == row[schema["source"]]
              && d.licenseVersion == row[schema["license_version"]]
              && d.foreignLandingUrl == row[schema["foreign_landing_url"]]
              && d.categories == policy.categories(d.extension, d.source)
              && d.license == Lower(row[schema["license"]].s)
              && d.description == ParseDescription(meta)
              && Success(d.normalizedPopularity) == NormalizedPopularity(row, schema)
              && (d.normalizedPopularity.None? <==> PopularityColumn !in schema)
              && (d.normalizedPopularity.Some? ==> 0.0 <= d.normalizedPopularity.value <= 100.0)
              && Success(d.aspectRatio) == GetAspectRatio(height, width)
              && Success(d.size) == GetSize(height, width)
              && (d.aspectRatio.None? <==> height.JNull? || width.JNull?)
              && (d.size.None? <==> height.JNull? || width.JNull?)
              && Success(d.licenseUrl) == GetLicenseUrl(meta)
              && Success(d.mature) == GetMaturity(meta, row[schema["mature"]])
              && (Truthy(row[schema["mature"]]) ==> d.mature == JBool(true))
              && Success(d.authorityBoost) == GetAuthorityBoost(meta, d.source, policy.authorityBoost)
              && Success(d.authorityPenalty) == GetAuthorityPenalty(meta, d.source, policy.authorityPenalty)
              && (|| d.authorityBoost == policy.authorityBoost(d.source) || d.authorityBoost.None?
                  || ScoreLow <= d.authorityBoost.value <= ScoreHigh)
              && (|| d.authorityPenalty == policy.authorityPenalty(d.source) || d.authorityPenalty.None?
                  || ScoreLow <= d.authorityPenalty.value <= ScoreHigh)
  {
    var locals :- ReadLocals(row, schema);
    var listing :- ReadListing(row, schema);
    var derived :- ReadDerived(row, schema, locals, policy);
    Success(Document(
      listing.id, listing.id, listing.title, listing.identifier, listing.creator, listing.creatorUrl,
      listing.tags, listing.createdOn, locals.url, listing.thumbnail, locals.provider, locals.source,
      listing.license, listing.licenseVersion, listing.foreignLandingUrl,
      ParseDescription(locals.meta), locals.extension, policy.categories(locals.extension, locals.source),
      derived.aspectRatio, derived.size, derived.licenseUrl, derived.mature,
      locals.popularity, derived.authorityBoost, derived.authorityPenalty))
  }

  /** A cell that a height or width column can hold. */
  predicate IsDimension(v: Json) {
    v.JNull? || v.JNum?
  }

  /**
    The cell shapes the image table's column types give: text urls and
    licenses, nullable integer dimensions, a JSON object or null for the
    metadata, a list of tag objects or null for the tags, and a number for
    the popularity when that column is selected.
  */
  predicate WellTypedRow(row: Row, schema: Schema)
    requires PositionsInRow(row, schema) && HasRequiredColumns(schema)
  {
    var meta, tags := row[schema["meta_data"]], row[schema["tags"]];
    && row[schema["url"]].JStr?
    && row[schema["license"]].JStr?
    && IsDimension(row[schema["height"]])
    && IsDimension(row[schema["width"]])
    && (meta.JNull? || meta.JObj?)
    && (tags.JNull? || (tags.JArr? && forall p :: 0 <= p < |tags.items| ==> tags.items[p].JObj?))
    && (PopularityColumn in schema ==> row[schema[PopularityColumn]].JNum?)
  }

  /** With every required column present and well-typed cells, normalisation cannot fail. */
  lemma WellTypedRowNormalises(row: Row, schema: Schema, policy: Policy)
    requires PositionsInRow(row, schema) && HasRequiredColumns(schema)
    requires WellTypedRow(row, schema)
    ensures RowToDocument(row, schema, policy).Success?
  {
    var tags := row[schema["tags"]];
    if tags.JArr? && |tags.items| > 0 {
      ParseDetailedTagsOfDicts(tags.items);
    }
  }
}

=== FILE: metadata.dfy ===
/**
  Fallback chains over the metadata blob: the license url, the maturity flag
  and the two authority scores.  Each starts with Python's
  `meta_data and key in meta_data`, so a falsy blob (None, an empty dict, an
  empty string, ...) counts as having no metadata, and a truthy number or
  boolean makes the `in` test raise TypeError.
*/
module Metadata {
  import opened Wrappers
  import opened PyValues
  import opened PyFloat
  import opened Bands

  /**
    `if meta_data and key in meta_data: meta_data[key]`, with the subscript
    outside any `try`: the value when the blob is a dict holding `key`,
    `None` when the test fails, and the exception when the test or the
    subscript raises.
  */
  function MetaLookup(meta: Json, key: string): (r: Result<Option<Json>, PyError>)
    ensures (meta.JNull? || meta.JObj?) ==> r.Success?
    ensures r.Success? && r.value.Some? <==> meta.JObj? && key in meta.fields
    ensures r.Success? && r.value.Some? ==> r.value.value == meta.fields[key]
    ensures r.Failure? <==> Truthy(meta) && (|| meta.JNum? || meta.JBool?
                                             || (meta.JStr? && IsSubstring(key, meta.s))
                                             || (meta.JArr? && JStr(key) in meta.items))
    ensures r.Failure? ==> r.error.TypeError?
  {
    if !Truthy(meta) then Success(None)
    else
      var present :- Contains(meta, key);
      if present then
        var value :- Subscript(meta, key);
        Success(Some(value))
      else
        Success(None)
  }

  /**
    `get_license_url`: the metadata's `license_url` when the blob is a
    non-empty dict holding it, otherwise `None`.  No url is synthesised from
    the license and its version.
  */
  function GetLicenseUrl(meta: Json): (r: Result<Option<Json>, PyError>)
    ensures (meta.JNull? || meta.JObj?) ==> r.Success?
    ensures r.Success? ==>
              r.value == (if meta.JObj? && "license_url" in meta.fields then Some(meta.fields["license_url"]) else None)
    ensures r.Failure? <==> Truthy(meta) && (|| meta.JNum? || meta.JBool?
                                             || (meta.JStr? && IsSubstring("license_url", meta.s))
                                             || (meta.JArr? && JStr("license_url") in meta.items))
  {
    MetaLookup(meta, "license_url")
  }

  /**
    `get_maturity`: start from False, adopt the metadata's `mature` value if
    there is one, then force True when the API-level flag is truthy.  The
    flag can only push towards mature; the metadata value is copied as is.
  */
  function GetMaturity(meta: Json, apiMaturityFlag: Json): (r: Result<Json, PyError>)
    ensures (meta.JNull? || meta.JObj?) ==> r.Success?
    ensures r.Success? && Truthy(apiMaturityFlag) ==> r.value == JBool(true)
    ensures r.Success? && !Truthy(apiMaturityFlag) ==>
              r.value == (if meta.JObj? && "mature" in meta.fields then meta.fields["mature"] else JBool(false))
    ensures r.Failure? <==> Truthy(meta) && (|| meta.JNum? || meta.JBool?
                                             || (meta.JStr? && IsSubstring("mature", meta.s))
                                             || (meta.JArr? && JStr("mature") in meta.items))
  {
    var fromMeta :- MetaLookup(meta, "mature");
    var mature := if fromMeta.Some? then fromMeta.value else JBool(false);
    if Truthy(apiMaturityFlag) then Success(JBool(true)) else Success(mature)
  }

  /** The interval every metadata-supplied score is clamped into. */
  const ScoreLow: real := 0.0
  const ScoreHigh: real := 100.0

  /**
    The shared shape of `get_authority_boost` and `get_authority_penalty`.
    When the blob is truthy and holds `key`, the value is converted with
    `float` and clamped into [0, 100]; a failed conversion (or a subscript
    that raises TypeError) leaves the result `None` and does not consult the
    collaborator.  Only when the blob is falsy or lacks `key` is the
    collaborator `lookup` asked, keyed by `source`.
  */
  function AuthorityScore(key: string, meta: Json, source: Json, lookup: Json -> Option<real>): (r: Result<Option<real>, PyError>)
    ensures (!Truthy(meta) || (meta.JObj? && key !in meta.fields)) ==> r == Success(lookup(source))
    ensures meta.JObj? && key in meta.fields ==>
              r == Success(match ToFloat(meta.fields[key])
                           case Some(x) => Some(ConstrainBetween(x, ScoreLow, ScoreHigh))
                           case None => None)
    ensures Truthy(meta) && (meta.JStr? || meta.JArr?) ==>
              r == Success(if (meta.JStr? && IsSubstring(key, meta.s)) || (meta.JArr? && JStr(key) in meta.items)
                           then None else lookup(source))
    ensures r.Success? ==> r.value == lookup(source) || r.value.None? || ScoreLow <= r.value.value <= ScoreHigh
    ensures r.Failure? <==> Truthy(meta) && (meta.JNum? || meta.JBool?)
  {
    if !Truthy(meta) then Success(lookup(source))
    else
      var present :- Contains(meta, key);
      if !present then Success(lookup(source))
      else
        // Inside the `try`: TypeError from the subscript and ValueError or
        // TypeError from `float` are swallowed and the score stays None.
        match Subscript(meta, key)
        case Failure(_) => Success(None)
        case Success(raw) =>
          match ToFloat(raw)
          case None => Success(None)
          case Some(x) => Success(Some(ConstrainBetween(x, ScoreLow, ScoreHigh)))
  }

  /** `Image.get_authority_boost`, falling back to the module-level `get_authority_boost`. */
  function GetAuthorityBoost(meta: Json, source: Json, lookup: Json -> Option<real>): (r: Result<Option<real>, PyError>)
    ensures (!Truthy(meta) || (meta.JObj? && "authority_boost" !in meta.fields)) ==> r == Success(lookup(source))
    ensures meta.JObj? && "authority_boost" in meta.fields && ToFloat(meta.fields["authority_boost"]).None? ==> r == Success(None)
    ensures Truthy(meta) && (meta.JStr? || meta.JArr?) ==>
              r == Success(if (meta.JStr? && IsSubstring("authority_boost", meta.s)) || (meta.JArr? && JStr("authority_boost") in meta.items)
                           then None else lookup(source))
    ensures meta.JObj? && "authority_boost" in meta.fields && ToFloat(meta.fields["authority_boost"]).Some? ==>
              && r == Success(Some(ConstrainBetween(ToFloat(meta.fields["authority_boost"]).value, ScoreLow, ScoreHigh)))
              && ScoreLow <= r.value.value <= ScoreHigh
    ensures (meta.JNull? || meta.JObj?) ==> r.Success?
  {
    AuthorityScore("authority_boost", meta, source, lookup)
  }

  /** `Image.get_authority_penalty`, falling back to the module-level `get_authority_penalty`. */
  function GetAuthorityPenalty(meta: Json, source: Json, lookup: Json -> Option<real>): (r: Result<Option<real>, PyError>)
    ensures (!Truthy(meta) || (meta.JObj? && "authority_penalty" !in meta.fields)) ==> r == Success(lookup(source))
    ensures meta.JObj? && "authority_penalty" in meta.fields && ToFloat(meta.fields["authority_penalty"]).None? ==> r == Success(None)
    ensures Truthy(meta) && (meta.JStr? || meta.JArr?) ==>
              r == Success(if (meta.JStr? && IsSubstring("authority_penalty", meta.s)) || (meta.JArr? && JStr("authority_penalty") in meta.items)
                           then None else lookup(source))
    ensures meta.JObj? && "authority_penalty" in meta.fields && ToFloat(meta.fields["authority_penalty"]).Some? ==>
              && r == Success(Some(ConstrainBetween(ToFloat(meta.fields["authority_penalty"]).value, ScoreLow, ScoreHigh)))
              && ScoreLow <= r.value.value <= ScoreHigh
    ensures (meta.JNull? || meta.JObj?) ==> r.Success?
  {
    AuthorityScore("authority_penalty", meta, source, lookup)
  }

  /** A non-numeric boost gives None even when the collaborator has a score. */
  lemma NonNumericBoostIgnoresCollaborator(lookup: Json -> Option<real>)
    requires lookup(JStr("flickr")) == Some(42.0)
    ensures GetAuthorityBoost(JObj(map["authority_boost" := JStr("not-a-number")]), JStr("flickr"), lookup) == Success(None)
  {
  }

  /** Empty metadata with the API flag set is mature. */
  lemma ApiFlagForcesMature()
    ensures GetMaturity(JObj(map[]), JBool(true)) == Success(JBool(true))
  {
  }
}

=== FILE: pyfloat.dfy ===
/**
  Python's `float(x)` on the values the metadata blob can hold.  Numbers pass
  through, booleans become 1.0 and 0.0, strings are parsed as decimal
  literals, and everything else raises.  Both raising cases (ValueError for a
  string that is not a number, TypeError for the rest) are `None` here,
  because the only caller catches both.
*/
module PyFloat {
  import opened Wrappers
  import opened PyValues

  predicate IsDigit(c: char) {
    '0' <= c <= '9'
  }

  predicate AllDigits(s: string) {
    forall i :: 0 <= i < |s| ==> IsDigit(s[i])
  }

  /** The value of a run of decimal digits, most significant first. */
  function DigitsValue(d: string): nat
    requires AllDigits(d)
    decreases |d|
  {
    if |d| == 0 then 0 else DigitsValue(d[..|d| - 1]) * 10 + (d[|d| - 1] as int - '0' as int)
  }

  function Pow10(n: nat): (r: nat)
    ensures r > 0
  {
    if n == 0 then 1 else 10 * Pow10(n - 1)
  }

  /** Position of the first '.' in `s`, or `|s|` when there is none. */
  function FirstDot(s: string): (k: nat)
    ensures k <= |s|
    ensures '.' !in s[..k]
    ensures k < |s| ==> s[k] == '.'
    decreases |s|
  {
    if |s| == 0 then 0
    else if s[0] == '.' then 0
    else 1 + FirstDot(s[1..])
  }

  /**
    The unsigned literals accepted: digits with at most one '.', and at least
    one digit ("7", "7.", ".5", "7.25").
  */
  predicate UnsignedLiteral(u: string) {
    || (|u| > 0 && AllDigits(u))
    || (|u| >= 2 && exists k :: 0 <= k < |u| && u[k] == '.' && AllDigits(u[..k]) && AllDigits(u[k + 1..]))
  }

  /** An optional '+' or '-' followed by an unsigned literal. */
  predicate DecimalLiteral(s: string) {
    || UnsignedLiteral(s)
    || (|s| > 0 && (s[0] == '+' || s[0] == '-') && UnsignedLiteral(s[1..]))
  }

  function ParseUnsigned(u: string): (r: Option<real>)
    ensures r.Some? <==> UnsignedLiteral(u)
    ensures r.Some? ==> r.value >= 0.0
  {
    var k := FirstDot(u);
    if k == |u| then
      assert !(exists j :: 0 <= j < |u| && u[j] == '.' && AllDigits(u[..j]) && AllDigits(u[j + 1..])) by {
        assert u[..k] == u;
      }
      if |u| > 0 && AllDigits(u) then Some(DigitsValue(u) as real) else None
    else
      var whole, fraction := u[..k], u[k + 1..];
      assert !AllDigits(u) by {
        assert !IsDigit(u[k]);
      }
      assert forall j :: 0 <= j < |u| && u[j] == '.' && AllDigits(u[..j]) ==> j == k by {
        forall j | 0 <= j < |u| && u[j] == '.' && AllDigits(u[..j]) ensures j == k {
        }
      }
      if |u| >= 2 && AllDigits(whole) && AllDigits(fraction) then
        Some(DigitsValue(whole) as real + DigitsValue(fraction) as real / Pow10(|fraction|) as real)
      else
        None
  }

  /** `float(s)` for a string `s`: `None` where Python raises ValueError. */
  function ParseDecimal(s: string): (r: Option<real>)
    ensures r.Some? <==> DecimalLiteral(s)
  {
    if |s| > 0 && (s[0] == '+' || s[0] == '-') then
      assert !UnsignedLiteral(s) by {
        assert !IsDigit(s[0]);
      }
      match ParseUnsigned(s[1..])
      case None => None
      case Some(x) => Some(if s[0] == '-' then -x else x)
    else
      ParseUnsigned(s)
  }

  /** `float(v)` for any value: `None` where Python raises. */
  function ToFloat(v: Json): (r: Option<real>)
    ensures v.JNum? ==> r == Some(v.n)
    ensures v.JStr? ==> (r.Some? <==> DecimalLiteral(v.s))
    ensures (v.JNull? || v.JArr? || v.JObj?) ==> r.None?
  {
    match v
    case JNum(n) => Some(n)
    case JBool(b) => Some(if b then 1.0 else 0.0)
    case JStr(s) => ParseDecimal(s)
    case _ => None
  }

  /** The decimal digits of `n`, as `str(n)` writes them. */
  function NatText(n: nat): (t: string)
    ensures |t| > 0 && AllDigits(t)
  {
    if n < 10 then [('0' as int + n) as char] else NatText(n / 10) + [('0' as int + n % 10) as char]
  }

  /** The digits `str(n)` writes are read back as `n`. */
  lemma {:induction false} DigitsValueOfNatText(n: nat)
    ensures DigitsValue(NatText(n)) == n
  {
    var t := NatText(n);
    if n >= 10 {
      assert t[..|t| - 1] == NatText(n / 10);
      DigitsValueOfNatText(n / 10);
    }
  }

  /** The text of an integer, as `str(i)` writes it. */
  function IntText(i: int): string {
    if i < 0 then "-" + NatText(-i) else NatText(i)
  }

  /** `float(str(i)) == i` for every integer `i`. */
  lemma {:induction false} ParseIntTextRoundTrip(i: int)
    ensures ParseDecimal(IntText(i)) == Some(i as real)
  {
    var n: nat := if i < 0 then -i else i;
    var t := NatText(n);
    DigitsValueOfNatText(n);
    assert FirstDot(t) == |t| by {
      assert !IsDigit('.');
    }
    assert ParseUnsigned(t) == Some(n as real);
    if i < 0 {
      assert IntText(i)[1..] == t;
    } else {
      assert t[0] != '+' && t[0] != '-' by {
        assert IsDigit(t[0]);
      }
    }
  }

  /** A literal with a fractional part reads its digits after the point. */
  lemma ParseFractionExample()
    ensures ParseDecimal("12.5") == Some(12.5)
  {
  }

  /** Text that is not a decimal literal does not parse. */
  lemma ParseRejectsWords()
    ensures ParseDecimal("not-a-number") == None
  {
  }
}

=== FILE: pyvalue.dfy ===
/**
  The Python values the normaliser handles: row cells, the `meta_data` JSON
  blob and the `tags` JSON list all arrive as JSON-like values.  This module
  fixes one datatype for them and the few Python operations the normaliser
  applies to them: truthiness, the `in` test, subscripting with a string key,
  numeric use, and `str.lower`.
*/
module PyValues {
  import opened Wrappers

  /** A JSON-like Python value.  Python `int` and `float` are both `JNum`. */
  datatype Json =
    | JNull
    | JBool(b: bool)
    | JNum(n: real)
    | JStr(s: string)
    | JArr(items: seq<Json>)
    | JObj(fields: map<string, Json>)

  /** The exceptions the normaliser can raise. */
  datatype PyError =
    | KeyError(key: string)
    | TypeError(operation: string)
    | AttributeError(attribute: string)

  /** Python truthiness: `None`, `False`, zero and empty containers are false. */
  predicate Truthy(v: Json) {
    match v
    case JNull => false
    case JBool(b) => b
    case JNum(n) => n != 0.0
    case JStr(s) => |s| > 0
    case JArr(items) => |items| > 0
    case JObj(fields) => |fields| > 0
  }

  /** `sub` occurs in `s` starting at position `i`. */
  predicate OccursAt(sub: string, s: string, i: nat) {
    i + |sub| <= |s| && s[i..i + |sub|] == sub
  }

  /** Python's `sub in s` for two strings, by scanning `s` from the left. */
  predicate IsSubstring(sub: string, s: string)
    decreases |s|
  {
    |sub| <= |s| && (s[..|sub|] == sub || (|s| > 0 && IsSubstring(sub, s[1..])))
  }

  /** The scan finds `sub` exactly when `sub` occurs somewhere in `s`. */
  lemma {:induction false} SubstringIff(sub: string, s: string)
    ensures IsSubstring(sub, s) <==> exists i: nat :: OccursAt(sub, s, i)
    decreases |s|
  {
    if |sub| > |s| {
      forall i: nat ensures !OccursAt(sub, s, i) {
      }
    } else if s[..|sub|] == sub {
      assert OccursAt(sub, s, 0);
    } else {
      SubstringIff(sub, s[1..]);
      if IsSubstring(sub, s[1..]) {
        var i: nat :| OccursAt(sub, s[1..], i);
        assert s[i + 1..i + 1 + |sub|] == s[1..][i..i + |sub|];
        assert OccursAt(sub, s, i + 1);
      } else {
        forall i: nat ensures !OccursAt(sub, s, i) {
          if i > 0 && i + |sub| <= |s| {
            var t := s[1..];
            var a, b := s[i..i + |sub|], t[i - 1..i - 1 + |sub|];
            assert forall k :: 0 <= k < |sub| ==> a[k] == b[k];
            assert a == b;
            assert !OccursAt(sub, s[1..], i - 1);
          }
        }
      }
    }
  }

  /**
    Python's `key in container` for a string key: a key test on a dict, a
    substring test on a str, an element test on a list; `None`, numbers and
    booleans raise TypeError.
  */
  function Contains(container: Json, key: string): (r: Result<bool, PyError>)
    ensures r.Failure? <==> container.JNull? || container.JBool? || container.JNum?
    ensures container.JObj? ==> r == Success(key in container.fields)
  {
    match container
    case JObj(fields) => Success(key in fields)
    case JStr(s) => Success(IsSubstring(key, s))
    case JArr(items) => Success(JStr(key) in items)
    case _ => Failure(TypeError("in"))
  }

  /** Python's `container[key]` for a string key; only a dict accepts one. */
  function Subscript(container: Json, key: string): (r: Result<Json, PyError>)
    ensures r.Success? <==> container.JObj? && key in container.fields
    ensures r.Success? ==> r.value == container.fields[key]
    ensures !container.JObj? ==> r.Failure? && r.error.TypeError?
  {
    match container
    case JObj(fields) => if key in fields then Success(fields[key]) else Failure(KeyError(key))
    case _ => Failure(TypeError("subscript"))
  }

  /**
    The number a value stands for when Python compares or multiplies it with
    a number: `bool` is a subclass of `int`; everything else raises TypeError.
  */
  function Number(v: Json): (r: Result<real, PyError>)
    ensures r.Success? <==> v.JNum? || v.JBool?
    ensures v.JNum? ==> r == Success(v.n)
  {
    match v
    case JNum(n) => Success(n)
    case JBool(b) => Success(if b then 1.0 else 0.0)
    case _ => Failure(TypeError("number"))
  }

  /** `str.lower` on one character (ASCII letters only). */
  function LowerChar(c: char): char {
    if 'A' <= c <= 'Z' then (c as int - 'A' as int + 'a' as int) as char else c
  }

  /** `str.lower`, character by character. */
  function Lower(s: string): (r: string)
    ensures |r| == |s|
    ensures forall i :: 0 <= i < |s| ==> r[i] == LowerChar(s[i])
    decreases |s|
  {
    if |s| == 0 then "" else [LowerChar(s[0])] + Lower(s[1..])
  }

  /** Lower-casing leaves no upper-case ASCII letter behind. */
  lemma LowerIsLower(s: string)
    ensures forall i :: 0 <= i < |s| ==> !('A' <= Lower(s)[i] <= 'Z')
  {
  }

  /** Lower-casing twice is lower-casing once. */
  lemma LowerIdempotent(s: string)
    ensures Lower(Lower(s)) == Lower(s)
  {
  }

  /** Lower-casing never creates or removes a '.' or a '/'. */
  lemma LowerKeepsSeparators(s: string)
    ensures '.' in Lower(s) <==> '.' in s
    ensures '/' in Lower(s) <==> '/' in s
  {
  }
}

=== FILE: tags.dfy ===
/**
  `parse_detailed_tags`: the tag list of a row is reduced to the tags that
  carry a `name`, each keeping only its `name` and, when present, its
  `accuracy`.
*/
module Tags {
  import opened Wrappers
  import opened PyValues

  /** An output tag: `{'name': ...}` plus `'accuracy'` when the input had one. */
  datatype Tag = Tag(name: Json, accuracy: Option<Json>)

  /** One pass of the loop body: `None` for a tag that is skipped. */
  function ParseTag(tag: Json): (r: Result<Option<Tag>, PyError>)
    ensures tag.JObj? ==> r == Success(if HasName(tag) then Some(Project(tag)) else None)
    ensures r.Success? ==> r.value == (if HasName(tag) then Some(Project(tag)) else None)
    ensures r.Failure? <==> (|| tag.JNull? || tag.JBool? || tag.JNum?
                             || (tag.JStr? && IsSubstring("name", tag.s))
                             || (tag.JArr? && JStr("name") in tag.items))
    ensures r.Failure? ==> r.error.TypeError?
  {
    var hasName :- Contains(tag, "name");
    if !hasName then Success(None)
    else
      var name :- Subscript(tag, "name");
      // Only a dict gets past the subscript, and on a dict the `accuracy`
      // test and lookup cannot raise.
      var accuracy := if "accuracy" in tag.fields then Some(tag.fields["accuracy"]) else None;
      Success(Some(Tag(name, accuracy)))
  }

  /** The loop over a list of tags, in order; the first exception ends it. */
  function ParseTagList(tags: seq<Json>): (r: Result<seq<Tag>, PyError>)
    ensures r.Success? ==> |r.value| <= |tags|
    ensures r.Failure? ==> r.error.TypeError?
    decreases |tags|
  {
    if |tags| == 0 then Success([])
    else
      match ParseTag(tags[0])
      case Failure(e) => Failure(e)
      case Success(first) =>
        match ParseTagList(tags[1..])
        case Failure(e) => Failure(e)
        case Success(rest) => Success(if first.Some? then [first.value] + rest else rest)
  }

  /**
    `parse_detailed_tags`.  A falsy value (None, an empty list, ...) gives
    `None`, never an empty list.  A list is walked tag by tag.  Iterating a
    dict walks its keys, and a key that contains "name" raises TypeError at
    the subscript; iterating a string walks one-character strings, which
    never contain "name".  Numbers and booleans are not iterable.
  */
  function ParseDetailedTags(tags: Json): (r: Result<Option<seq<Tag>>, PyError>)
    ensures r == Success(None) <==> !Truthy(tags)
    ensures r.Failure? ==> r.error.TypeError?
    ensures tags.JStr? && Truthy(tags) ==> r == Success(Some([]))
    ensures tags.JObj? && Truthy(tags) ==>
              && (r.Failure? <==> exists k :: k in tags.fields && IsSubstring("name", k))
              && (r.Success? ==> r == Success(Some([])))
    ensures tags.JArr? && |tags.items| > 0 ==> r == (match ParseTagList(tags.items)
                                                   case Success(parsed) => Success(Some(parsed))
                                                   case Failure(e) => Failure(e))
  {
    if !Truthy(tags) then Success(None)
    else
      match tags
      case JArr(items) =>
        var parsed :- ParseTagList(items);
        Success(Some(parsed))
      case JObj(fields) =>
        if exists k | k in fields :: IsSubstring("name", k) then Failure(TypeError("subscript"))
        else Success(Some([]))
      case JStr(_) => Success(Some([]))
      case _ => Failure(TypeError("iteration"))
  }

  /** The tags the loop keeps: dicts holding a `name` key. */
  predicate HasName(tag: Json) {
    tag.JObj? && "name" in tag.fields
  }

  /** The dict `{'name': ..., 'accuracy': ...}` built for a kept tag. */
  function Project(tag: Json): (t: Tag)
    requires HasName(tag)
    ensures t.name == tag.fields["name"]
    ensures t.accuracy.Some? <==> "accuracy" in tag.fields
    ensures t.accuracy.Some? ==> t.accuracy.value == tag.fields["accuracy"]
  {
    Tag(tag.fields["name"], if "accuracy" in tag.fields then Some(tag.fields["accuracy"]) else None)
  }

  /** Positions, from `i` on, of the tags holding a `name`, in increasing order. */
  ghost function NamedFrom(tags: seq<Json>, i: nat): (ix: seq<nat>)
    requires i <= |tags|
    ensures forall j :: 0 <= j < |ix| ==> i <= ix[j] < |tags| && HasName(tags[ix[j]])
    ensures forall j, k :: 0 <= j < k < |ix| ==> ix[j] < ix[k]
    ensures forall p :: i <= p < |tags| && HasName(tags[p]) ==> p in ix
    decreases |tags| - i
  {
    if i == |tags| then []
    else if HasName(tags[i]) then [i] + NamedFrom(tags, i + 1)
    else NamedFrom(tags, i + 1)
  }

  /** The projections of the tags at positions `ix`, in the order of `ix`. */
  function ProjectAll(tags: seq<Json>, ix: seq<nat>): (out: seq<Tag>)
    requires forall j :: 0 <= j < |ix| ==> ix[j] < |tags| && HasName(tags[ix[j]])
    ensures |out| == |ix|
    ensures forall j :: 0 <= j < |ix| ==> out[j] == Project(tags[ix[j]])
    decreases |ix|
  {
    if |ix| == 0 then [] else [Project(tags[ix[0]])] + ProjectAll(tags, ix[1..])
  }

  /**
    On a list of tags none of which raises, the loop yields exactly the
    named dicts, in input order, each projected to `name` and `accuracy`;
    strings and lists without a "name" element are skipped like unnamed dicts.
  */
  lemma {:induction false} ParseTagListKeepsNamedInOrder(tags: seq<Json>, i: nat)
    requires i <= |tags|
    requires forall p :: 0 <= p < |tags| ==> ParseTag(tags[p]).Success?
    ensures ParseTagList(tags[i..]) == Success(ProjectAll(tags, NamedFrom(tags, i)))
    decreases |tags| - i
  {
    if i < |tags| {
      ParseTagListKeepsNamedInOrder(tags, i + 1);
      var rest := NamedFrom(tags, i + 1);
      var here := tags[i..];
      assert here[0] == tags[i] && here[1..] == tags[i + 1..];
      assert ParseTag(tags[i]).Success?;
      if HasName(tags[i]) {
        assert ([i] + rest)[1..] == rest;
      }
    }
  }

  /**
    A non-empty list of dicts becomes the list of its named tags, in order,
    each reduced to `name` and, when present, `accuracy`.
  */
  lemma ParseDetailedTagsOfDicts(items: seq<Json>)
    requires |items| > 0
    requires forall p :: 0 <= p < |items| ==> items[p].JObj?
    ensures ParseDetailedTags(JArr(items)) == Success(Some(ProjectAll(items, NamedFrom(items, 0))))
  {
    ParseTagListKeepsNamedInOrder(items, 0);
    assert items[0..] == items;
  }

  /** An empty or absent tag list gives None, not an empty list. */
  lemma NoTagsIsNone()
    ensures ParseDetailedTags(JNull) == Success(None)
    ensures ParseDetailedTags(JArr([])) == Success(None)
  {
  }

  /** A tag without a `name` is dropped; a named one keeps its accuracy. */
  lemma TagsExample()
    ensures var cat := JObj(map["name" := JStr("cat"), "accuracy" := JNum(0.9)]);
            var unnamed := JObj(map["accuracy" := JNum(0.5)]);
            ParseDetailedTags(JArr([cat, unnamed])) == Success(Some([Tag(JStr("cat"), Some(JNum(0.9)))]))
  {
    var cat := JObj(map["name" := JStr("cat"), "accuracy" := JNum(0.9)]);
    var unnamed := JObj(map["accuracy" := JNum(0.5)]);
    assert ParseTag(cat) == Success(Some(Tag(JStr("cat"), Some(JNum(0.9)))));
    assert ParseTag(unnamed) == Success(None);
    assert [cat, unnamed][1..] == [unnamed];
    assert ParseTagList([unnamed]) == Success([]) by {
      assert [unnamed][1..] == [];
    }
    assert [Tag(JStr("cat"), Some(JNum(0.9)))] + [] == [Tag(JStr("cat"), Some(JNum(0.9)))];
  }

  /** A string tag without "name" is skipped, not rejected; the dict after it is kept. */
  lemma MixedTagsExample()
    ensures var cat := JObj(map["name" := JStr("cat")]);
            ParseDetailedTags(JArr([JStr("hello"), cat])) == Success(Some([Tag(JStr("cat"), None)]))
  {
    var cat := JObj(map["name" := JStr("cat")]);
    assert !IsSubstring("name", "hello") by {
      assert "hello"[..4][0] != "name"[0] && "hello"[1..] == "ello";
      assert "ello"[..4][0] != "name"[0] && "ello"[1..] == "llo";
    }
    assert ParseTag(JStr("hello")) == Success(None);
    assert ParseTag(cat) == Success(Some(Tag(JStr("cat"), None)));
    assert [JStr("hello"), cat][1..] == [cat];
    assert ParseTagList([cat]) == Success([Tag(JStr("cat"), None)]) by {
      assert [cat][1..] == [];
      assert [Tag(JStr("cat"), None)] + [] == [Tag(JStr("cat"), None)];
    }
  }
}

=== FILE: text_fields.dfy ===
/**
  Text derivations of the image normaliser: the file extension taken from the
  url and the description taken from the metadata blob.
*/
module TextFields {
  import opened Wrappers
  import opened PyValues

  /** Index of the last '.' among the first `n` characters of `url`, or -1 when there is none. */
  function LastDotBefore(url: string, n: nat): (k: int)
    requires n <= |url|
    ensures -1 <= k < n
    ensures k >= 0 ==> url[k] == '.'
    ensures forall j :: k < j < n ==> url[j] != '.'
  {
    if n == 0 then -1
    else if url[n - 1] == '.' then n - 1
    else LastDotBefore(url, n - 1)
  }

  /** `url.split('.')[-1]`: the text after the last '.', or all of `url` when it has none. */
  function LastDotSegment(url: string): (seg: string)
    ensures |seg| <= |url| && seg == url[|url| - |seg|..]
    ensures '.' !in seg
    ensures |seg| < |url| ==> url[|url| - |seg| - 1] == '.'
  {
    var k := LastDotBefore(url, |url|);
    var seg := url[k + 1..];
    assert forall p :: 0 <= p < |seg| ==> seg[p] == url[k + 1 + p];
    seg
  }

  /** A '/' lies in the last segment exactly when some '/' of the url has no '.' after it. */
  lemma SlashInLastSegment(url: string)
    ensures '/' in LastDotSegment(url) <==> exists j :: 0 <= j < |url| && url[j] == '/' && '.' !in url[j..]
  {
    if exists j :: 0 <= j < |url| && url[j] == '/' && '.' !in url[j..] {
      var j :| 0 <= j < |url| && url[j] == '/' && '.' !in url[j..];
      SlashAfterLastDot(url, j);
    }
  }

  /** A '/' with no '.' after it lies inside the last segment. */
  lemma SlashAfterLastDot(url: string, j: nat)
    requires j < |url| && url[j] == '/' && '.' !in url[j..]
    ensures '/' in LastDotSegment(url)
  {
  }

  /**
    `get_extension`: the lower-cased text after the last '.' of the url, or
    `None` when that text contains a '/'.  A url without any '.' is its own
    last segment, so a url with neither '.' nor '/' comes back whole.
  */
  function GetExtension(url: string): (r: Option<string>)
    ensures r.Some? ==> '.' !in r.value && '/' !in r.value
    ensures r.Some? ==>
              && |r.value| <= |url|
              && r.value == Lower(url[|url| - |r.value|..])
              && (|r.value| == |url| || url[|url| - |r.value| - 1] == '.')
    ensures r.None? <==> exists j :: 0 <= j < |url| && url[j] == '/' && '.' !in url[j..]
  {
    var segment := LastDotSegment(url);
    var extension := Lower(segment);
    LowerKeepsSeparators(segment);
    SlashInLastSegment(url);
    if '/' in extension then None else Some(extension)
  }

  /** A url with neither '.' nor '/' is returned whole, lower-cased. */
  lemma {:induction false} ExtensionOfPlainName(url: string)
    requires '.' !in url && '/' !in url
    ensures GetExtension(url) == Some(Lower(url))
  {
  }

  /** The url of a photo keeps its extension; a directory url has none. */
  lemma ExtensionExamples()
    ensures GetExtension("e.com/photo.JPG") == Some("jpg")
    ensures GetExtension("e.com/gallery/") == None
  {
    var photo := "e.com/photo.JPG";
    assert LastDotSegment(photo) == "JPG";
    assert Lower("JPG") == "jpg";
    var gallery := "e.com/gallery/";
    assert gallery[5] == '/' && '.' !in gallery[5..];
  }

  /** The maximum length of a description. */
  const DescriptionLimit: nat := 2000

  /** `value[:limit]`: strings and lists are sliced, anything else raises TypeError. */
  function SliceTo(value: Json, limit: nat): (r: Result<Json, PyError>)
    ensures r.Success? <==> value.JStr? || value.JArr?
    ensures value.JStr? ==> r.Success? && r.value.JStr? && r.value.s <= value.s && |r.value.s| == Min(|value.s|, limit)
    ensures value.JArr? ==> r.Success? && r.value.JArr? && r.value.items <= value.items && |r.value.items| == Min(|value.items|, limit)
  {
    match value
    case JStr(s) => Success(JStr(if |s| <= limit then s else s[..limit]))
    case JArr(items) => Success(JArr(if |items| <= limit then items else items[..limit]))
    case _ => Failure(TypeError("slice"))
  }

  function Min(a: nat, b: nat): nat {
    if a <= b then a else b
  }

  /**
    `parse_description`: the metadata's `description`, cut to its first 2000
    elements.  Every TypeError (metadata that cannot be searched or indexed
    by a string, a description that cannot be sliced) gives `None`, and so
    does a mapping without the key.
  */
  function ParseDescription(meta: Json): (r: Option<Json>)
    ensures r.Some? ==> meta.JObj? && "description" in meta.fields
    ensures meta.JObj? && "description" in meta.fields ==>
              var d := meta.fields["description"];
              && (r.Some? <==> d.JStr? || d.JArr?)
              && (d.JStr? ==> r.value.JStr? && r.value.s <= d.s && |r.value.s| == Min(|d.s|, DescriptionLimit))
              && (d.JArr? ==> r.value.JArr? && r.value.items <= d.items && |r.value.items| == Min(|d.items|, DescriptionLimit))
  {
    match Contains(meta, "description")
    case Failure(_) => None
    case Success(present) =>
      if !present then None
      else
        // For a dict the key is present; for a str or a list the subscript raises TypeError.
        match Subscript(meta, "description")
        case Failure(_) => None
        case Success(d) =>
          match SliceTo(d, DescriptionLimit)
          case Failure(_) => None
          case Success(cut) => Some(cut)
  }

  /** A 2500-character description comes back as its first 2000 characters. */
  lemma LongDescriptionIsCut(text: string)
    requires |text| == 2500
    ensures ParseDescription(JObj(map["description" := JStr(text)])) == Some(JStr(text[..2000]))
  {
  }
}

=== FILE: wrappers.dfy ===
/** Failure-compatible wrappers used in place of Python's `None` and exceptions. */
module Wrappers {

  /** A value that may be missing; `None` stands for Python's `None`. */
  datatype Option<+T> = None | Some(value: T) {

    predicate IsFailure() {
      None?
    }

    function PropagateFailure<U>(): Option<U>
      requires None?
    {
      None
    }

    function Extract(): T
      requires Some?
    {
      value
    }
  }

  /** Either a computed value or the exception the computation raised. */
  datatype Result<+T, +E> = Success(value: T) | Failure(error: E) {

    predicate IsFailure() {
      Failure?
    }

    function PropagateFailure<U>(): Result<U, E>
      requires Failure?
    {
      Failure(error)
    }

    function Extract(): T
      requires Success?
    {
      value
    }
  }
}
